=== FILE: README.md ===
# Pet client and pet server: a Dafny model

The system is a small HTTP client library with a demo pet service behind it.

The client (`src/api.ts`) exposes `request(method, path, body?)`.
- Every call is queued on the current *context*: an identity (`auth`) and a promise chain.
- Calls on one context run one after another, in the order they were issued.
- `requestSession(executor)` runs the executor inside a fresh context that inherits the caller's `auth`.
- Each call is one run of `performHttpRequest`. This retry engine classifies every attempt's outcome.
- A 401 or 500 status, or a timeout, is retried up to `MAX_RETRIES` (2) times, with a backoff of 150·n ms.
- A 2xx status resolves the call with the parsed body, or with the raw text when it does not parse.
- Anything else rejects the call with `HTTP <status>: <text>`.

The server (`src/server.ts`) keeps a registry in memory: a map from user id to that user's pets, and one pet id counter shared by all users.
- It reads the user id from an `Authorization: Bearer <id>` header, answering 401 when there is none.
- It serves `GET /pets`, `GET /pets/<id>` and `POST /pet`, each on the caller's own list.
- It may inject a 500 or hang before doing any of that.

The model is split into these modules:

- `Wrappers`, `Constants`: the `Option` type, and the constants of `src/constants.ts`.
- `JsValues`: the JavaScript conversions the two sides rely on. These are `trim`, `Number(text)` on decimal integers, `${n}` on an integer, and `String(v)` on a parsed JSON value.
- `RetryEngine`: the attempt classification, the reference state machine `Run`, and the imperative loop `PerformHttpRequest`. The loop is proved to settle exactly as `Run` does.
- `Contexts`: a `Context` class holding `auth` and the chain.
  - The chain is represented as the tasks not yet started plus the settlements of those already run.
  - A `ContextStore` class holds the default context and a stack of session contexts.
  - The scenario methods at the end show the ordering and isolation properties on fresh objects.
- `PetServer`: the registry as a value `Registry` and the request handling as functions (`PetsRoute`, `Dispatch`, `Serve`).
  - The class `PetStore` updates `usersById` and `nextPetId` in place.
  - Its methods are proved equal to those functions, and to preserve the registry invariant `WellFormed`. Under that invariant, ids are unique across users and increase along each list.
- `Handshake`: the two sides composed.
  - The header the client sends is read back by the server as the same user id.
  - A call without identity is answered 401 and retried until the retries run out.
  - The client test's create/list/fetch scenario holds for any two users and any three names.

## Model

| member | source | states |
|---|---|---|
| JsValues.LeadingSpaces | src/server.ts:51 | the count of whitespace characters the text starts with: all of them are whitespace and the next one, if any, is not |
| JsValues.TrailingSpaces | src/server.ts:51 | the count of whitespace characters the text ends with: all of them are whitespace and the one before them, if any, is not |
| JsValues.Trim | src/server.ts:51 | `trim()` returns the infix left after removing whitespace at both ends; neither end of it is whitespace |
| JsValues.TrimKeepsTrimmed | src/server.ts:51 | text with no whitespace at either end is unchanged by `trim()` |
| JsValues.TrimIdempotent | src/server.ts:51 | trimming twice is the same as trimming once |
| JsValues.NatToString | src/api.ts:79 | the decimal rendering of a natural number is a non-empty string of digits with no leading zero; 0 is rendered "0", as in the "HTTP 0: …" message for a missing status |
| JsValues.IntToString | src/api.ts:66 | `${n}` is all digits exactly when n ≥ 0, and then it is the decimal rendering of n; for negative n it is '-' followed by the decimal rendering of -n, so no leading zero after the sign |
| JsValues.NatToStringRoundTrip | src/api.ts:79 | the value of the digits of the rendering of n is n |
| JsValues.ParseTrimmed | src/server.ts:51 | on trimmed text, `Number` reads the empty string as 0, a digit string as its value, and a sign followed by digits as the signed value; it is NaN exactly for any other text |
| JsValues.ParseNumberCases | src/server.ts:51 | `Number(text)` is 0 for empty or all-whitespace text and the digits' value when the trimmed text is digits; it is NaN exactly when the trimmed text is neither digits nor a sign followed by digits |
| JsValues.ParseRendered | src/server.ts:51 | the rendering `${n}` of any integer, already free of whitespace, is read by `Number` as n |
| JsValues.IntToStringRoundTrip | src/server.ts:51 | `Number` reads back every integer rendered by `${n}` |
| JsValues.JsString | src/server.ts:85 | `String(v)` throws exactly when `v` is an object with its own `toString` key or an array holding such a value at any depth; otherwise null, booleans, numbers and strings render as in JavaScript, a plain object as "[object Object]" and an array as its elements joined |
| JsValues.ElementTexts | src/server.ts:85 | one text per array element, in order, null elements as the empty string |
| JsValues.JoinElements | src/server.ts:85 | `join(",")` separates the elements' texts by commas, null elements rendering as the empty string; it throws exactly when converting one element throws |
| RetryEngine.Classify | src/api.ts:70-95 | an attempt delivers its text exactly for a 2xx status (a missing status counts as 0); a failed response carries `HTTP <status>: <text>`; a timeout fails with the error 'Timeout' and a transport error with its own message, neither flagged for retry; a failure is retried exactly when it is a 401, a 500, a timeout or a transport error with message 'Timeout' |
| RetryEngine.Settle | src/api.ts:101-109 | the call resolves exactly when the attempt delivered; a body that parses resolves to the parsed value and one that does not to the raw text; a rejection carries the attempt's error |
| RetryEngine.AuthorizationHeader | src/api.ts:63-67 | the header is present exactly when `auth` is defined and nonzero; it is "Bearer " followed by `${auth}` |
| RetryEngine.HeaderReadsBack | src/api.ts:63-67 | `Number` of the text after "Bearer " is `auth` again |
| RetryEngine.BuildRequest | src/api.ts:57-98 | an attempt keeps the call's method and path and carries `AuthorizationHeader(auth)`; a body is written exactly for a POST with a body |
| RetryEngine.Run | src/api.ts:53-128 | a call makes between 1 and MAX_RETRIES + 1 attempts; every attempt before the last was transient; stopping before the bound means the last one was not transient; the call settles with its last attempt |
| RetryEngine.RetriesExhausted | src/api.ts:121-126 | when every attempt is transient, exactly MAX_RETRIES + 1 attempts are made and the call rejects with the last attempt's error |
| RetryEngine.StopsAtFirstSettlingAttempt | src/api.ts:110-126 | the first attempt that is not transient (success, fatal status, other transport error) is the last attempt, and the call settles with it |
| RetryEngine.BackoffsIncrease | src/api.ts:122 | pauses of 150·n ms before attempt n + 1 grow strictly from one retry to the next |
| RetryEngine.PerformHttpRequest | src/api.ts:45-129 | the loop settles as `Run` does; it sends one identical request per attempt, with `auth` read once before the loop; its pauses are 150·n ms for n = 1, 2, …, one fewer than the attempts, strictly increasing |
| Contexts.CallsOf | src/api.ts:32-43 | the calls of the settled tasks, one per task, in order |
| Contexts.Context.constructor | src/api.ts:10 | a new context has the given `auth` and a resolved chain: nothing pending, nothing run |
| Contexts.Context.Enqueued | src/api.ts:32-43 | every task enqueued so far, in enqueue order: the settled ones first, then the pending ones |
| Contexts.Context.Enqueue | src/api.ts:32-43 | `enqueueTaskForContext` appends the task after everything already enqueued and hands back its own slot |
| Contexts.Context.RunNext | src/api.ts:35-42 | the oldest pending task runs next, whatever earlier tasks settled with; it uses `auth` as it is when the task starts; its outcome is `Run`'s and goes to its own slot; earlier settlements are unchanged |
| Contexts.ContextStore.constructor | src/api.ts:9-10 | the process starts with no session and a default context with no `auth` |
| Contexts.ContextStore.Current | src/api.ts:12-14 | the current context is the innermost session's, or the default one when no session is open |
| Contexts.ContextStore.Auth | src/api.ts:141-143 | the `auth` getter reads the current context's `auth` |
| Contexts.ContextStore.SetAuth | src/api.ts:144-147 | the `auth` setter changes the current context's `auth` and no other context's |
| Contexts.ContextStore.Request | src/api.ts:131-138 | `request` enqueues the call on the current context's chain and on no other |
| Contexts.ContextStore.OpenSession | src/api.ts:151-160 | a session context is fresh, copies the current `auth`, has an empty chain, and becomes current |
| Contexts.ContextStore.CloseSession | src/api.ts:159-163 | leaving the session makes the previous context current again, the session's own context is no longer reachable from the store (it relies on the store's invariant: the default context is never a session and sessions are distinct), and the session settles with exactly the executor's outcome |
| Contexts.AuthReadWhenTaskStarts | src/api.ts:50 | a write to `auth` made after a call is enqueued but before it starts is the one the call sends |
| Contexts.RejectedTaskDoesNotBlock | src/api.ts:36-41 | after a call that fails with a fatal status, the next call on the same context still runs; each handle carries its own task's outcome |
| Contexts.SessionIsolation | test/api.spec.ts:19-38 | a session inherits the outer `auth`; setting it inside the session leaves the outer one unchanged; calls inside go on the session's chain, not the outer one |
| PetServer.GetUserId | src/server.ts:48-53 | no user id without a header starting with "Bearer "; otherwise the id is `Number` of the trimmed rest |
| PetServer.TakeUntilSlash | src/server.ts:72 | the longest prefix without a '/' |
| PetServer.PathSegment | src/server.ts:72 | `pathname.split('/')[2]` is the text after "/pets/" up to the next '/' or the end |
| PetServer.FindPet | src/server.ts:74 | `find` returns nothing exactly when no pet has the id; otherwise it returns the first pet with that id |
| PetServer.PetName | src/server.ts:85 | the name is '' when the body has no `name` key or a null one; otherwise it is `String` of the name value (a string as itself, a number as its digits, …), and there is no name exactly when that conversion throws |
| PetServer.PetsRoute | src/server.ts:55-96 | the caller always ends up with an entry; no other user's entry changes; the counter moves by at most one, and only on a create with a body; the caller's list is kept or gains one pet at its end, whose id is the old counter and which is answered 201; an unmatched route is 404 |
| PetServer.Lookup | src/server.ts:71-77 | a non-numeric segment gives 400 "Invalid pet id"; otherwise 200 exactly when some pet of the caller's list has the id, and then the answer is the first such pet; 404 exactly when none has it |
| PetServer.Create | src/server.ts:80-93 | an unparsable body gives 400 "Bad JSON" and changes nothing; a parsed body moves the counter by one; 201 exactly when the name converts; otherwise 400 "Bad JSON" and no list changes |
| PetServer.Dispatch | src/server.ts:109-133 | an empty url or method gets an empty 200; no user id gets 401 "Unauthorized" and changes nothing; an authenticated request outside "/pets" and "/pet" gets 404 and changes nothing; the registry changes only for an authenticated request under "/pets" or to "/pet" |
| PetServer.Serve | src/server.ts:98-134 | an injected error answers 500 "Random server error" and a hang gives no response, neither changing anything; without a fault the answer and the new registry are those of `Dispatch` |
| PetServer.AppendFresh | src/server.ts:84-87 | appending a pet numbered by the counter keeps a list increasing and below the moved counter |
| PetServer.DisjointFromFresh | src/server.ts:84-87 | a pet numbered by the counter shares no id with any other user's list |
| PetServer.AppendKeepsWellFormed | src/server.ts:84-87 | a create keeps the registry invariant: ids below the counter, increasing per list, unique across users |
| PetServer.EntryKeepsWellFormed | src/server.ts:60 | adding the caller's empty entry keeps the registry invariant |
| PetServer.PetsRouteKeepsWellFormed | src/server.ts:55-96 | every route keeps the registry invariant |
| PetServer.DispatchToPetsRoute | src/server.ts:128-130 | an authenticated request under "/pets" or to "/pet" is handled by `handlePetsRoute` for that user |
| PetServer.CreateAppendsToCallerOnly | src/server.ts:80-88 | a create with a convertible name answers 201 with the pet numbered by the old counter, moves the counter by one, and appends the pet to the caller's list only |
| PetServer.BadJsonChangesNoList | src/server.ts:90-91 | a create whose body does not parse answers 400 "Bad JSON" and changes neither the counter nor any list |
| PetServer.ListReturnsOwnList | src/server.ts:66-68 | an authenticated GET /pets answers the caller's list in insertion order; the only change is the caller's entry, created empty if it was missing |
| PetServer.PetPathSegment | src/server.ts:71-72 | "/pets/" followed by `${id}` is routed to a lookup of exactly `${id}` |
| PetServer.GetFindsOwnPet | src/server.ts:71-77 | GET /pets/<id> of one of the caller's own pets returns that pet |
| PetServer.GetNeverReturnsOthersPet | src/server.ts:71-77 | GET /pets/<id> of another user's pet is 404 |
| PetServer.FetchAnswersOwnerOnly | src/server.ts:71-77 | an authenticated GET /pets/<id> for a pet held by some user answers that pet exactly when the caller is its owner and 404 otherwise; the only change is the caller's entry, created empty if it was missing |
| PetServer.PetStore.constructor | src/server.ts:12-13 | the server starts with no users and the counter at 1 |
| PetServer.PetStore.HandlePetsRoute | src/server.ts:55-96 | the in-place `handlePetsRoute` leaves the registry and answer `PetsRoute` specifies, and keeps the registry invariant |
| PetServer.PetStore.HandleRequest | src/server.ts:98-134 | the in-place request handler answers and updates as `Serve` specifies, and keeps the registry invariant |
| Handshake.BearerRoundTrip | src/server.ts:48-53 | the header the client builds for a nonzero `auth` is read back by `getUserId` as that id; for `auth` undefined or 0 there is no user id |
| Handshake.Received | src/api.ts:57-72 | the server sees the client's method, its path as url and pathname ("/" for an empty path), its `Authorization` header unchanged, and a body exactly when the client wrote one, as the object it serialised |
| Handshake.UnauthenticatedCallExhaustsRetries | src/api.ts:77-82 | a call without identity whose path reaches the server (an empty path goes out as "/") is answered 401 and changes nothing; the client treats 401 as transient, so it makes all MAX_RETRIES + 1 attempts and rejects with `HTTP 401: Unauthorized` |
| Handshake.CreateOverTheWire | src/server.ts:80-88 | `request('POST', '/pet', { name })` with a nonzero `auth` is answered 201 with the pet numbered by the counter, appended to that user's list only |
| Handshake.ListOverTheWire | src/server.ts:66-68 | `request('GET', '/pets')` with a nonzero `auth` is answered with that user's own list |
| Handshake.FetchOverTheWire | src/server.ts:71-77 | `request('GET', '/pets/<id>')` returns the pet when the caller owns it and 404 when another user does |
| Handshake.CreateOnServer | src/server.ts:80-88 | one create on the in-place store: 201 and the pet appended to the caller's list |
| Handshake.ListOnServer | src/server.ts:66-68 | one list on the in-place store: the caller's list |
| Handshake.FetchOnServer | src/server.ts:71-77 | one fetch on the in-place store: the pet when the caller owns it, else 404 |
| Handshake.Populate | test/api.spec.ts:19-38 | three creates on a fresh server leave ids 1 and 2 in the first user's list, in that order, id 3 in the second user's, and the counter at 4 |
| Handshake.CreateListFetchScenario | test/api.spec.ts:19-38 | after user 1 creates two pets and user 2 one, user 1 lists exactly its two pets in creation order; user 2 fetches its pet by id 3; user 1 gets 404 for it |

## Left out

- The network and `http.request` are not modelled as I/O. One attempt is the `Outcome` that `respond(attempt)` gives: a response (optional status, text), a timeout, or a transport error. The per-attempt timer race and the sleeps are left out as real-time concurrency; a timeout is an outcome, and a backoff is a returned delay.
- Unhandled rejections: `createTimeoutPromise` (src/api.ts:27) calls `sourcePromise.finally(…)` and drops the promise this returns. When an attempt's request rejects (any non-2xx status, including 401 and 500, or a transport error), that dropped promise rejects with no handler. Under Node's default `--unhandled-rejections=throw` mode, this can end the process before the retry happens. The model assumes the process survives this rejection: every attempt's failure is handled only by the retry loop, as `Run` and `PerformHttpRequest` state. This reading of the source was not executed.
- `JSON.parse` on the client is a parameter `parse` that may fail. `JSON.stringify` followed by the server's `JSON.parse` is taken to give back the body object. A request with no body reaches the server as a parse failure.
- `new URL(req.url, …).pathname` is not computed. The request carries its pathname next to its url. Across the wire, both are taken to be the client's path ("/" for an empty path, which `http.request` sends as "/"). This assumes the path carries no query or fragment; `request` itself accepts any string.
- Handshake.Received: models only paths that `http.request` sends unchanged and that carry no query or fragment. For a path with a query such as "/pets?x=1" the server's `new URL` drops the query and routes by "/pets", where the model routes by the whole path (404). Dot segments and percent-encoding are not normalised. A path with characters `http.request` refuses (a space, say) makes the attempt throw before anything is sent, which rejects the call once without retry; no lemma covers such calls.
- `AsyncLocalStorage` is an explicit stack of session contexts; the async propagation itself is not modelled. How tasks of different contexts interleave is not modelled, and each task runs as one atomic step.
- Contexts.ContextStore.CloseSession: the executor is not run inside the model; its outcome is a parameter that is returned unchanged.
- JsValues.ParseNumber: `Number(text)` is modelled only for an optional sign followed by decimal digits, and for empty or all-whitespace text, which gives 0. Exponents, fractions, hex and `Infinity` are read as NaN here; a lone sign is NaN in JavaScript as well. So `getUserId` gives no id for a header like "Bearer 1e3", where the source gives 1000.
- PetServer.GetUserId: it inherits the integer-only `Number` above; fractional user ids are not modelled.
- JSON numbers are integers only (`JNum(int)`), so `String(v)` of a fractional number is not modelled.
- The random fault draws and their probabilities are a nondeterministic `Fault` parameter. The logging, `getPort`, `src/main.ts` and the `Content-Type` header are left out.
- JsValues.ParseTrimmed: reads every digit string as its exact integer. JavaScript's `Number` rounds to the nearest double beyond 2^53, and gives Infinity from about 1.8·10^308 on. So two headers "Bearer 9007199254740992" and "Bearer 9007199254740993" are one user in the source and two in the model. For a string of more than about 309 digits, `getUserId` gives no id (401) and `/pets/<digits>` answers 400 in the source, where the model finds a user id and answers 404.
- JsValues.IntToString: renders every integer as plain digits. JavaScript writes `${n}` in exponent notation ("1e+21") from 10^21 on. User ids and pet ids are taken to be integers that a JavaScript number holds exactly.
- PetServer.PetStore.HandlePetsRoute: each request is handled as one atomic step. In the source a POST /pet awaits its body (src/server.ts:82) after creating the caller's entry and before taking an id, so other requests may run in between; that interleaving is not modelled.
- src/logger.js is not part of this model.

=== FILE: constants.dfy ===
/** The fixed numbers shared by the client and the pet server (src/constants.ts). */
module Constants {

  /** Retries allowed after the first attempt of one call. */
  const MAX_RETRIES: nat := 2

  /** Each pause between attempts is this many milliseconds times the attempt number just failed. */
  const BACKOFF_STEP_MS: nat := 150

  const OK: nat := 200
  const CREATED: nat := 201
  const BAD_REQUEST: nat := 400
  const UNAUTHORIZED: nat := 401
  const NOT_FOUND: nat := 404
  const INTERNAL_ERROR: nat := 500
}

=== FILE: contexts.dfy ===
/**
 * The coordination layer of the client (src/api.ts): per-context request
 * chains, the context store with its default context, the `auth` property
 * and `requestSession`.
 *
 * A context's promise chain is represented by what it stands for: the tasks
 * enqueued behind it and not yet started (`pending`, in enqueue order) and
 * the outcomes of the tasks already run (`settled`, in the order they ran).
 * Running a task is one atomic step, so a task starts only once the one
 * before it has settled. The `AsyncLocalStorage` is an explicit stack of
 * session contexts above the default one.
 */
module Contexts {
  import opened Wrappers
  import opened JsValues
  import opened RetryEngine

  /** What the caller's handle for one task settles with, and how it was produced. */
  datatype Settlement = Settlement(call: Call, auth: Option<int>, sent: seq<HttpRequest>, result: CallResult)

  function CallsOf(done: seq<Settlement>): (calls: seq<Call>)
    ensures |calls| == |done|
    ensures forall k :: 0 <= k < |done| ==> calls[k] == done[k].call
  {
    if done == [] then [] else CallsOf(done[..|done| - 1]) + [done[|done| - 1].call]
  }

  /** `{ auth, chain }`: one identity and one request chain. */
  class Context {
    var auth: Option<int>
    var pending: seq<Call>
    var settled: seq<Settlement>

    /** A context whose chain is `Promise.resolve()`: nothing enqueued, nothing run. */
    constructor (auth: Option<int>)
      ensures this.auth == auth && pending == [] && settled == []
    {
      this.auth := auth;
      pending := [];
      settled := [];
    }

    /** Every task enqueued on this context so far, in enqueue order; the chain never rewinds. */
    function Enqueued(): (tasks: seq<Call>)
      reads this
      ensures |tasks| == |settled| + |pending|
      ensures tasks[|settled|..] == pending
      ensures forall k :: 0 <= k < |settled| ==> tasks[k] == settled[k].call
    {
      CallsOf(settled) + pending
    }

    /**
     * `enqueueTaskForContext`: the task takes the next slot after everything
     * already enqueued; the returned ticket is the caller's handle on it.
     */
    method Enqueue(call: Call) returns (ticket: nat)
      modifies this`pending
      ensures pending == old(pending) + [call]
      ensures Enqueued() == old(Enqueued()) + [call]
      ensures ticket == |old(Enqueued())| && Enqueued()[ticket] == call
    {
      ticket := |settled| + |pending|;
      pending := pending + [call];
    }

    /**
     * The chain reaches the oldest pending task and runs it to completion.
     * Whatever the tasks before it settled with (the stored chain swallows a
     * rejection), it runs; it reads `auth` as it is when it starts, not as
     * it was when the task was enqueued; its own outcome goes to its own
     * ticket and to no other.
     */
    method RunNext(respond: nat -> Outcome, parse: string -> Option<Json>) returns (ticket: nat)
      requires pending != []
      modifies this`pending, this`settled
      ensures ticket == |old(settled)|
      ensures Enqueued() == old(Enqueued())
      ensures pending == old(pending)[1..]
      ensures |settled| == ticket + 1 && settled[..ticket] == old(settled)
      ensures settled[ticket].call == old(pending)[0] == Enqueued()[ticket]
      ensures settled[ticket].auth == auth
      ensures settled[ticket].result == Run(respond, parse, 1).result
      ensures |settled[ticket].sent| == Run(respond, parse, 1).attempts
      ensures forall i :: 0 <= i < |settled[ticket].sent| ==>
        settled[ticket].sent[i] == BuildRequest(settled[ticket].call, auth)
    {
      var call := pending[0];
      var result, sent, _ := PerformHttpRequest(call, auth, respond, parse);
      ticket := |settled|;
      ghost var before := Enqueued();
      settled := settled + [Settlement(call, auth, sent, result)];
      pending := pending[1..];
      assert Enqueued() == before by {
        assert CallsOf(settled) == CallsOf(old(settled)) + [call];
      }
    }
  }

  /**
   * The context store: a default context that lives as long as the process,
   * and the stack of session contexts currently substituted for it.
   */
  class ContextStore {
    const root: Context
    var sessions: seq<Context>

    ghost predicate Valid()
      reads this
    {
      && root !in sessions
      && forall i, j :: 0 <= i < j < |sessions| ==> sessions[i] != sessions[j]
    }

    ghost function Contexts(): set<Context>
      reads this
    {
      {root} + set c | c in sessions
    }

    /** The process starts with no session and a default context with no `auth`. */
    constructor ()
      ensures Valid() && sessions == [] && fresh(root)
      ensures root.auth == None && root.pending == [] && root.settled == []
    {
      root := new Context(None);
      sessions := [];
    }

    /** `getCurrentContext`: the innermost session's context, or the default one outside any session. */
    function Current(): (c: Context)
      reads this
      ensures c == root || c in sessions
      ensures sessions == [] ==> c == root
      ensures sessions != [] ==> c == sessions[|sessions| - 1]
    {
      if sessions == [] then root else sessions[|sessions| - 1]
    }

    /** The `auth` getter. */
    function Auth(): (a: Option<int>)
      reads this, Current()
      ensures a == Current().auth
    {
      Current().auth
    }

    /** The `auth` setter: changes the current context's identity and no other context's. */
    method SetAuth(a: Option<int>)
      requires Valid()
      modifies Current()`auth
      ensures Current() == old(Current())
      ensures Auth() == a
      ensures forall c :: c in Contexts() && c != Current() ==> c.auth == old(c.auth)
    {
      var context := Current();
      context.auth := a;
    }

    /** `request(method, path, body?)`: enqueues the call on the current context's chain. */
    method Request(call: Call) returns (ticket: nat)
      requires Valid()
      modifies Current()`pending
      ensures Current() == old(Current())
      ensures Current().Enqueued() == old(Current().Enqueued()) + [call]
      ensures ticket == |old(Current().Enqueued())|
      ensures forall c :: c in Contexts() && c != Current() ==> c.pending == old(c.pending)
    {
      var context := Current();
      ticket := context.Enqueue(call);
    }

    /**
     * The start of `requestSession`: a fresh context that copies the current
     * `auth`, with an already resolved chain of its own, becomes current.
     */
    method OpenSession() returns (context: Context)
      requires Valid()
      modifies this`sessions
      ensures Valid() && fresh(context)
      ensures sessions == old(sessions) + [context] && Current() == context
      ensures context.auth == old(Auth())
      ensures context.pending == [] && context.settled == []
    {
      context := new Context(Current().auth);
      sessions := sessions + [context];
    }

    /**
     * The end of `requestSession`'s scope: the context that was current
     * before it is current again, the session's own context is no longer
     * reachable from the store, and the session settles with exactly what
     * its executor returned or threw.
     */
    method CloseSession<T>(executorOutcome: T) returns (outcome: T)
      requires Valid() && sessions != []
      modifies this`sessions
      ensures Valid()
      ensures sessions == old(sessions)[..|old(sessions)| - 1]
      ensures old(Current()) !in Contexts()
      ensures outcome == executorOutcome
    {
      sessions := sessions[..|sessions| - 1];
      outcome := executorOutcome;
    }
  }

  /**
   * A write to `auth` made after a call is enqueued but before it starts is
   * seen by that call: the header it sends carries the newer identity.
   */
  method AuthReadWhenTaskStarts(respond: nat -> Outcome, parse: string -> Option<Json>)
    returns (used: Option<int>, header: Option<string>)
    ensures used == Some(2)
    ensures header == AuthorizationHeader(Some(2))
  {
    var store := new ContextStore();
    store.SetAuth(Some(1));
    var ticket := store.Request(Call(GET, "/pets", None));
    store.SetAuth(Some(2));
    var context := store.Current();
    var ran := context.RunNext(respond, parse);
    assert ran == ticket == 0;
    used := context.settled[0].auth;
    header := context.settled[0].sent[0].authorization;
  }

  /**
   * Two calls enqueued on one context: the first fails for good, the second
   * still runs, and each handle carries its own task's outcome.
   */
  method RejectedTaskDoesNotBlock(
    failing: nat -> Outcome, later: nat -> Outcome, parse: string -> Option<Json>)
    returns (first: CallResult, second: CallResult)
    requires failing(1).Response? && ClassOf(StatusOf(failing(1))) == Fatal
    ensures first.Rejected? && first.error.message == HttpMessage(StatusOf(failing(1)), failing(1).text)
    ensures second == Run(later, parse, 1).result
  {
    var context := new Context(Some(1));
    var a := context.Enqueue(Call(POST, "/pet", Some(map["name" := JStr("cat")])));
    var b := context.Enqueue(Call(GET, "/pets", None));
    assert Run(failing, parse, 1).result.Rejected?
      && Run(failing, parse, 1).result.error.message == HttpMessage(StatusOf(failing(1)), failing(1).text)
    by {
      StopsAtFirstSettlingAttempt(failing, parse, 1);
    }
    var ranA := context.RunNext(failing, parse);
    first := context.settled[a].result;
    var ranB := context.RunNext(later, parse);
    second := context.settled[b].result;
  }

  /**
   * The session scenario of the client's test: a session inherits the
   * ambient `auth`, changing it inside the session leaves the outer context
   * alone, and calls issued inside go on the session's own chain.
   */
  method SessionIsolation() returns (inherited: Option<int>, inner: Option<int>, outer: Option<int>, outerQueued: nat)
    ensures inherited == Some(1) && inner == Some(2) && outer == Some(1)
    ensures outerQueued == 1
  {
    var store := new ContextStore();
    store.SetAuth(Some(1));
    var mine := store.Request(Call(GET, "/pets", None));
    var session := store.OpenSession();
    inherited := store.Auth();
    store.SetAuth(Some(2));
    inner := store.Auth();
    var theirs := store.Request(Call(POST, "/pet", Some(map["name" := JStr("jaguar")])));
    var done := store.CloseSession(theirs);
    outer := store.Auth();
    outerQueued := |store.root.pending|;
  }
}

=== FILE: handshake.dfy ===
/**
 * The client and the pet server meet on the wire: the request one client
 * attempt sends, as the server's handler receives it.
 */
module Handshake {
  import opened Wrappers
  import opened JsValues
  import opened Constants
  import RetryEngine
  import opened PetServer

  /**
   * The server's view of one client attempt, for a path that `http.request`
   * sends as it is and that carries no query or fragment: the path is both
   * the url and the pathname, an empty path goes on the wire as "/", and a
   * written body reaches `JSON.parse` as the object it was serialised from;
   * with no body the empty text fails to parse.
   */
  function Received(r: RetryEngine.HttpRequest): (req: Request)
    ensures req.verb == (if r.verb == RetryEngine.GET then "GET" else "POST")
    ensures req.url == req.pathname != ""
    ensures r.path != "" ==> req.url == r.path
    ensures r.path == "" ==> req.url == "/"
    ensures req.authorization == r.authorization
    ensures req.body.Some? <==> r.payload.Some?
    ensures r.payload.Some? ==> req.body == Some(JObj(r.payload.value))
  {
    var path := if r.path == "" then "/" else r.path;
    Request(
      if r.verb == RetryEngine.GET then "GET" else "POST",
      path, path, r.authorization,
      match r.payload
      case Some(fields) => Some(JObj(fields))
      case None => None)
  }

  /**
   * The header the client attaches for a truthy `auth` is read back by the
   * server as that same user id; with `auth` undefined or 0 the server has
   * no user id.
   */
  lemma BearerRoundTrip(auth: Option<int>)
    ensures GetUserId(RetryEngine.AuthorizationHeader(auth)) == (if auth == Some(0) then None else auth)
  {
    var header := RetryEngine.AuthorizationHeader(auth);
    if header.Some? {
      RetryEngine.HeaderReadsBack(auth);
      TrimIdempotent(header.value[7..]);
    }
  }

  /**
   * A call made without an identity is answered 401 by a server that
   * injects no fault, and the client takes 401 for a transient failure: it
   * spends all MAX_RETRIES + 1 attempts and surfaces the 401.
   */
  lemma UnauthenticatedCallExhaustsRetries(
    reg: Registry, call: RetryEngine.Call, auth: Option<int>, parse: string -> Option<Json>)
    requires auth.None? || auth == Some(0)
    ensures var answer := Dispatch(reg, Received(RetryEngine.BuildRequest(call, auth)));
      answer == Handled(Response(UNAUTHORIZED, Text("Unauthorized")), reg)
    ensures var respond := (k: nat) => RetryEngine.Response(Some(UNAUTHORIZED), "Unauthorized");
      && RetryEngine.Run(respond, parse, 1).attempts == MAX_RETRIES + 1
      && RetryEngine.Run(respond, parse, 1).result
         == RetryEngine.Rejected(RetryEngine.RetryError(RetryEngine.HttpMessage(UNAUTHORIZED, "Unauthorized"), true))
  {
    BearerRoundTrip(auth);
    var respond := (k: nat) => RetryEngine.Response(Some(UNAUTHORIZED), "Unauthorized");
    RetryEngine.RetriesExhausted(respond, parse);
  }

  /**
   * `request('POST', '/pet', { name })` by a client whose `auth` is a
   * nonzero id reaches a healthy server as that user's create: 201 with a
   * pet numbered by the counter, appended to that user's list only.
   */
  lemma CreateOverTheWire(reg: Registry, auth: int, name: string)
    requires auth != 0
    ensures var pet := Pet(reg.nextPetId, name);
      var call := RetryEngine.Call(RetryEngine.POST, "/pet", Some(map["name" := JStr(name)]));
      Dispatch(reg, Received(RetryEngine.BuildRequest(call, Some(auth))))
      == Handled(Response(CREATED, PetJson(pet)),
                 Registry(reg.usersById[auth := Owned(reg, auth) + [pet]], reg.nextPetId + 1))
  {
    var body := JObj(map["name" := JStr(name)]);
    var call := RetryEngine.Call(RetryEngine.POST, "/pet", Some(map["name" := JStr(name)]));
    var req := Received(RetryEngine.BuildRequest(call, Some(auth)));
    BearerRoundTrip(Some(auth));
    assert req.verb == "POST" && req.pathname == "/pet" && req.url != "" && req.body == Some(body);
    DispatchToPetsRoute(reg, req, auth);
    CreateAppendsToCallerOnly(reg, auth, body, name);
  }

  /**
   * `request('GET', '/pets')` by a client with a nonzero `auth` answers
   * that user's own list; the only change is the caller's entry.
   */
  lemma ListOverTheWire(reg: Registry, auth: int)
    requires auth != 0
    ensures var call := RetryEngine.Call(RetryEngine.GET, "/pets", None);
      Dispatch(reg, Received(RetryEngine.BuildRequest(call, Some(auth))))
      == Handled(Response(OK, PetListJson(Owned(reg, auth))),
                 Registry(reg.usersById[auth := Owned(reg, auth)], reg.nextPetId))
  {
    var req := Received(RetryEngine.BuildRequest(RetryEngine.Call(RetryEngine.GET, "/pets", None), Some(auth)));
    BearerRoundTrip(Some(auth));
    ListReturnsOwnList(reg, req, auth);
  }

  /**
   * `request('GET', `/pets/${id}`)` by a client with a nonzero `auth`
   * returns the pet when it is that user's, and 404 when it is another's;
   * the only change is the caller's entry, created if it was missing.
   */
  lemma FetchOverTheWire(reg: Registry, auth: int, owner: int, p: Pet)
    requires WellFormed(reg) && auth != 0
    requires owner in reg.usersById && p in reg.usersById[owner]
    ensures var call := RetryEngine.Call(RetryEngine.GET, "/pets/" + IntToString(p.id), None);
      Dispatch(reg, Received(RetryEngine.BuildRequest(call, Some(auth))))
      == Handled(if owner == auth then Response(OK, PetJson(p)) else NotFound,
                 Registry(reg.usersById[auth := Owned(reg, auth)], reg.nextPetId))
  {
    var path := "/pets/" + IntToString(p.id);
    var req := Received(RetryEngine.BuildRequest(RetryEngine.Call(RetryEngine.GET, path, None), Some(auth)));
    BearerRoundTrip(Some(auth));
    FetchAnswersOwnerOnly(reg, req, auth, owner, p);
  }

  /**
   * One `request('POST', '/pet', { name })` answered by a healthy server:
   * the store gains the pet at the end of the caller's list.
   */
  method CreateOnServer(store: PetStore, auth: int, name: string) returns (response: Option<Response>)
    requires store.Valid() && auth != 0
    modifies store
    ensures store.Valid()
    ensures response == Some(Response(CREATED, PetJson(Pet(old(store.nextPetId), name))))
    ensures store.nextPetId == old(store.nextPetId) + 1
    ensures store.usersById
      == old(store.usersById)[auth := Owned(old(store.State()), auth) + [Pet(old(store.nextPetId), name)]]
  {
    var call := RetryEngine.Call(RetryEngine.POST, "/pet", Some(map["name" := JStr(name)]));
    CreateOverTheWire(store.State(), auth, name);
    response := store.HandleRequest(NoFault, Received(RetryEngine.BuildRequest(call, Some(auth))));
  }

  /** One `request('GET', '/pets')` answered by a healthy server: the caller's list. */
  method ListOnServer(store: PetStore, auth: int) returns (response: Option<Response>)
    requires store.Valid() && auth != 0
    modifies store
    ensures store.Valid()
    ensures response == Some(Response(OK, PetListJson(Owned(old(store.State()), auth))))
    ensures store.nextPetId == old(store.nextPetId)
    ensures store.usersById == old(store.usersById)[auth := Owned(old(store.State()), auth)]
  {
    var call := RetryEngine.Call(RetryEngine.GET, "/pets", None);
    ListOverTheWire(store.State(), auth);
    response := store.HandleRequest(NoFault, Received(RetryEngine.BuildRequest(call, Some(auth))));
  }

  /** One `request('GET', `/pets/${id}`)` for a pet `p` held by `owner`, answered by a healthy server. */
  method FetchOnServer(store: PetStore, auth: int, owner: int, p: Pet) returns (response: Option<Response>)
    requires store.Valid() && auth != 0
    requires owner in store.usersById && p in store.usersById[owner]
    modifies store
    ensures store.Valid()
    ensures response == Some(if owner == auth then Response(OK, PetJson(p)) else NotFound)
    ensures store.nextPetId == old(store.nextPetId)
    ensures store.usersById == old(store.usersById)[auth := Owned(old(store.State()), auth)]
  {
    var call := RetryEngine.Call(RetryEngine.GET, "/pets/" + IntToString(p.id), None);
    FetchOverTheWire(store.State(), auth, owner, p);
    response := store.HandleRequest(NoFault, Received(RetryEngine.BuildRequest(call, Some(auth))));
  }

  /** Three creations on a fresh server: two pets for one user, one for another. */
  method Populate(user1: int, user2: int, name1: string, name2: string, name3: string)
    returns (store: PetStore)
    requires user1 != 0 && user2 != 0 && user1 != user2
    ensures fresh(store) && store.Valid() && store.nextPetId == 4
    ensures user1 in store.usersById && store.usersById[user1] == [Pet(1, name1), Pet(2, name2)]
    ensures user2 in store.usersById && store.usersById[user2] == [Pet(3, name3)]
  {
    store := new PetStore();
    var first, second, third := Pet(1, name1), Pet(2, name2), Pet(3, name3);
    var _ := CreateOnServer(store, user1, name1);
    assert store.usersById[user1] == [first] && user2 !in store.usersById by {
      assert [] + [first] == [first];
    }
    var _ := CreateOnServer(store, user1, name2);
    assert store.usersById[user1] == [first, second] && user2 !in store.usersById by {
      assert [first] + [second] == [first, second];
    }
    var _ := CreateOnServer(store, user2, name3);
    assert store.usersById[user2] == [third] by {
      assert [] + [third] == [third];
    }
  }

  /**
   * The scenario of the client's test, on the wire, for any two distinct
   * users and any three names: the first user creates two pets and the
   * second one; the first lists exactly its two pets in creation order, the
   * second fetches its pet by id 3 and the first gets 404 for it.
   */
  method CreateListFetchScenario(user1: int, user2: int, name1: string, name2: string, name3: string)
    returns (mine: Option<Response>, theirs: Option<Response>, stolen: Option<Response>)
    requires user1 != 0 && user2 != 0 && user1 != user2
    ensures mine == Some(Response(OK, PetListJson([Pet(1, name1), Pet(2, name2)])))
    ensures theirs == Some(Response(OK, PetJson(Pet(3, name3))))
    ensures stolen == Some(NotFound)
  {
    var store := Populate(user1, user2, name1, name2, name3);
    var third := Pet(3, name3);
    mine := ListOnServer(store, user1);
    theirs := FetchOnServer(store, user2, user2, third);
    stolen := FetchOnServer(store, user1, user2, third);
  }
}

=== FILE: js_values.dfy ===
/**
 * The few JavaScript value conversions the client and the server rely on:
 * `String.prototype.trim`, `Number(text)` on decimal integers, the decimal
 * rendering of an integer in a template literal, and `String(value)` on a
 * parsed JSON value.
 */
module JsValues {
  import opened Wrappers

  /** A value produced by `JSON.parse`. Numbers are restricted to integers. */
  datatype Json =
    | JNull
    | JBool(b: bool)
    | JNum(n: int)
    | JStr(s: string)
    | JArr(elems: seq<Json>)
    | JObj(fields: map<string, Json>)

  predicate IsDigit(c: char) {
    '0' <= c <= '9'
  }

  predicate AllDigits(s: string) {
    forall i :: 0 <= i < |s| ==> IsDigit(s[i])
  }

  /** The characters `trim` removes: ECMAScript WhiteSpace and LineTerminator. */
  predicate IsWhitespace(c: char) {
    || c == '\t' || c == '\n' || c == '\U{000B}' || c == '\U{000C}' || c == '\r'
    || c == ' ' || c == '\U{00A0}' || c == '\U{1680}'
    || ('\U{2000}' <= c <= '\U{200A}')
    || c == '\U{2028}' || c == '\U{2029}' || c == '\U{202F}' || c == '\U{205F}'
    || c == '\U{3000}' || c == '\U{FEFF}'
  }

  predicate StartsWith(s: string, prefix: string) {
    |prefix| <= |s| && s[..|prefix|] == prefix
  }

  /** How many whitespace characters `s` starts with. */
  function LeadingSpaces(s: string): (n: nat)
    ensures n <= |s|
    ensures forall i :: 0 <= i < n ==> IsWhitespace(s[i])
    ensures n == |s| || !IsWhitespace(s[n])
  {
    if s != [] && IsWhitespace(s[0]) then 1 + LeadingSpaces(s[1..]) else 0
  }

  /** How many whitespace characters `s` ends with. */
  function TrailingSpaces(s: string): (n: nat)
    ensures n <= |s|
    ensures forall i :: |s| - n <= i < |s| ==> IsWhitespace(s[i])
    ensures n == |s| || !IsWhitespace(s[|s| - 1 - n])
  {
    if s != [] && IsWhitespace(s[|s| - 1]) then 1 + TrailingSpaces(s[..|s| - 1]) else 0
  }

  /**
   * `s.trim()`: the infix of `s` left after removing whitespace at both ends;
   * what is removed is whitespace and what is left neither starts nor ends with it.
   */
  function Trim(s: string): (r: string)
    ensures var lead := LeadingSpaces(s);
      && lead + |r| <= |s| && r == s[lead..lead + |r|]
      && (forall i :: 0 <= i < lead ==> IsWhitespace(s[i]))
      && (forall i :: lead + |r| <= i < |s| ==> IsWhitespace(s[i]))
    ensures r == [] || (!IsWhitespace(r[0]) && !IsWhitespace(r[|r| - 1]))
  {
    var lead := LeadingSpaces(s);
    var trail := TrailingSpaces(s[lead..]);
    s[lead..|s| - trail]
  }

  /** Text without whitespace at either end is left alone by `trim`. */
  lemma TrimKeepsTrimmed(s: string)
    requires s == [] || (!IsWhitespace(s[0]) && !IsWhitespace(s[|s| - 1]))
    ensures Trim(s) == s
  {
  }

  /** Trimming twice is trimming once. */
  lemma TrimIdempotent(s: string)
    ensures Trim(Trim(s)) == Trim(s)
  {
    TrimKeepsTrimmed(Trim(s));
  }

  function DigitValue(c: char): (d: nat)
    requires IsDigit(c)
    ensures d < 10
  {
    (c - '0') as nat
  }

  function DigitChar(d: nat): (c: char)
    requires d < 10
    ensures IsDigit(c) && DigitValue(c) == d
  {
    ('0' as int + d) as char
  }

  /** The value of a string of decimal digits, most significant first. */
  function DigitsValue(s: string): nat
    requires AllDigits(s)
  {
    if s == [] then 0 else DigitsValue(s[..|s| - 1]) * 10 + DigitValue(s[|s| - 1])
  }

  /** The decimal rendering of a natural number: digits only, no leading zero. */
  function NatToString(n: nat): (s: string)
    ensures |s| >= 1 && AllDigits(s)
    ensures s[0] == '0' ==> n == 0
    ensures n == 0 ==> s == "0"
  {
    if n < 10 then [DigitChar(n)] else NatToString(n / 10) + [DigitChar(n % 10)]
  }

  /** `${n}` for an integer `n`. */
  function IntToString(n: int): (s: string)
    ensures |s| >= 1 && IsDigit(s[|s| - 1])
    ensures n >= 0 <==> AllDigits(s)
    ensures n < 0 ==> s[0] == '-' && AllDigits(s[1..])
    ensures n >= 0 ==> s == NatToString(n)
    ensures n < 0 ==> s[1..] == NatToString(-n)
  {
    if n < 0 then
      var s := "-" + NatToString(-n);
      assert !IsDigit(s[0]);
      s
    else NatToString(n)
  }

  /** Reading back the rendering of `n` gives `n`. */
  lemma {:induction false} NatToStringRoundTrip(n: nat)
    ensures DigitsValue(NatToString(n)) == n
  {
    if n >= 10 {
      var s := NatToString(n);
      assert s[..|s| - 1] == NatToString(n / 10);
      NatToStringRoundTrip(n / 10);
    }
  }

  /** A sign followed by at least one decimal digit. */
  predicate SignedDigits(t: string) {
    |t| > 1 && (t[0] == '-' || t[0] == '+') && AllDigits(t[1..])
  }

  /**
   * `Number(text)` restricted to decimal integers: the trimmed text is empty
   * (Number("") is 0), or digits with an optional sign. None stands for NaN.
   */
  function ParseNumber(text: string): (r: Option<int>)
  {
    ParseTrimmed(Trim(text))
  }

  /**
   * What `Number(text)` gives: 0 for text that is all whitespace, the value
   * of the digits when the trimmed text is digits, and NaN exactly when the
   * trimmed text is neither digits nor a sign followed by digits.
   */
  lemma ParseNumberCases(text: string)
    ensures (forall i :: 0 <= i < |text| ==> IsWhitespace(text[i])) ==> ParseNumber(text) == Some(0)
    ensures AllDigits(Trim(text)) ==> ParseNumber(text) == Some(DigitsValue(Trim(text)))
    ensures ParseNumber(text).None? <==> !AllDigits(Trim(text)) && !SignedDigits(Trim(text))
  {
  }

  /**
   * `Number` on text already trimmed: digits read as their value, a sign
   * and digits as the signed value, and anything else is NaN.
   */
  function ParseTrimmed(t: string): (r: Option<int>)
    ensures t == [] ==> r == Some(0)
    ensures AllDigits(t) ==> r == Some(DigitsValue(t))
    ensures SignedDigits(t) ==> r == Some(if t[0] == '-' then -(DigitsValue(t[1..]) as int) else DigitsValue(t[1..]))
    ensures r.None? <==> !AllDigits(t) && !SignedDigits(t)
    ensures r.Some? && r.value < 0 ==> t[0] == '-'
  {
    if AllDigits(t) then Some(DigitsValue(t))
    else if SignedDigits(t) then
      var magnitude: int := DigitsValue(t[1..]);
      Some(if t[0] == '-' then -magnitude else magnitude)
    else None
  }

  /** `Number` reads back every integer rendered by `${n}`. */
  lemma IntToStringRoundTrip(n: int)
    ensures ParseNumber(IntToString(n)) == Some(n)
  {
    var s := IntToString(n);
    assert !IsWhitespace(s[0]) && !IsWhitespace(s[|s| - 1]);
    TrimKeepsTrimmed(s);
    ParseRendered(n);
  }

  /** The rendering of `n` is trimmed text that `Number` reads as `n`. */
  lemma ParseRendered(n: int)
    ensures ParseTrimmed(IntToString(n)) == Some(n)
  {
    if n < 0 {
      var digits := NatToString(-n);
      var s := "-" + digits;
      assert s[1..] == digits;
      assert !AllDigits(s) by {
        assert !IsDigit(s[0]);
      }
      NatToStringRoundTrip(-n);
    } else {
      NatToStringRoundTrip(n);
    }
  }

  /**
   * Whether `String(v)` throws a TypeError: an object carrying its own
   * (never callable) `toString` property has no primitive value, and an
   * array converts by joining its elements, so it throws when one of them does.
   */
  predicate StringThrows(v: Json) {
    match v
    case JObj(fields) => "toString" in fields
    case JArr(elems) => exists i :: 0 <= i < |elems| && StringThrows(elems[i])
    case _ => false
  }

  /** `parts.join(",")`. */
  function Join(parts: seq<string>): string {
    if parts == [] then ""
    else if |parts| == 1 then parts[0]
    else parts[0] + "," + Join(parts[1..])
  }

  /** `String(v)` on a parsed JSON value; None when the conversion throws. */
  function JsString(v: Json): (r: Option<string>)
    ensures r.None? <==> StringThrows(v)
    ensures v.JNull? ==> r == Some("null")
    ensures v.JBool? ==> r == Some(if v.b then "true" else "false")
    ensures v.JNum? ==> r == Some(IntToString(v.n))
    ensures v.JStr? ==> r == Some(v.s)
    ensures v.JObj? && r.Some? ==> r.value == "[object Object]"
    ensures v.JArr? && r.Some? ==> r.value == Join(ElementTexts(v.elems))
    decreases v, 2
  {
    match v
    case JNull => Some("null")
    case JBool(b) => Some(if b then "true" else "false")
    case JNum(n) => Some(IntToString(n))
    case JStr(s) => Some(s)
    case JArr(elems) => JoinElements(elems)
    case JObj(fields) => if "toString" in fields then None else Some("[object Object]")
  }

  /** How `join` renders one element: null as the empty string, anything else by `String`. */
  function ElementText(e: Json): string
    decreases e, 3
  {
    if e == JNull then "" else JsString(e).GetOr("")
  }

  function ElementTexts(elems: seq<Json>): (texts: seq<string>)
    ensures |texts| == |elems|
    ensures forall i :: 0 <= i < |elems| ==> texts[i] == ElementText(elems[i])
    decreases elems, 0
  {
    if elems == [] then [] else [ElementText(elems[0])] + ElementTexts(elems[1..])
  }

  /**
   * `Array.prototype.join(",")`: the elements' texts separated by commas,
   * null elements as the empty string; it throws exactly when converting
   * one of the elements throws.
   */
  function JoinElements(elems: seq<Json>): (r: Option<string>)
    ensures r.None? <==> exists i :: 0 <= i < |elems| && StringThrows(elems[i])
    ensures r.Some? ==> r.value == Join(ElementTexts(elems))
    decreases elems, 1
  {
    if elems == [] then Some("")
    else
      var head := if elems[0] == JNull then Some("") else JsString(elems[0]);
      assert head.None? <==> StringThrows(elems[0]);
      if |elems| == 1 then head
      else
        var rest := JoinElements(elems[1..]);
        assert (exists i :: 0 <= i < |elems| && StringThrows(elems[i]))
          <==> StringThrows(elems[0]) || exists i :: 0 <= i < |elems[1..]| && StringThrows(elems[1..][i])
        by {
          forall i | 1 <= i < |elems| ensures elems[i] == elems[1..][i - 1] { }
        }
        match (head, rest)
        case (Some(h), Some(t)) => Some(h + "," + t)
        case _ => None
  }
}

=== FILE: pet_server.dfy ===
/**
 * The in-memory pet registry and request router of the collaborator service
 * (src/server.ts). A request and a response are plain values; the registry
 * is a map from user id to that user's pets plus one id counter shared by
 * all users.
 */
module PetServer {
  import opened Wrappers
  import opened JsValues
  import opened Constants

  datatype Pet = Pet(id: int, name: string)

  /** What a response carries: plain text, or the JSON of one pet or of a list of pets. */
  datatype Payload = Text(text: string) | PetJson(pet: Pet) | PetListJson(pets: seq<Pet>)

  datatype Response = Response(status: nat, payload: Payload)

  /**
   * An incoming request: `req.method`, `req.url` (only tested for being
   * empty), the pathname `new URL` derives from the url, the `authorization`
   * header, and what `JSON.parse` makes of the body text (None when it throws).
   */
  datatype Request = Request(
    verb: string,
    url: string,
    pathname: string,
    authorization: Option<string>,
    body: Option<Json>)

  /** The two random draws the handler starts with: a 500, a hang, or neither. */
  datatype Fault = NoFault | InjectedError | Hang

  /** `usersById` and `nextPetId`. */
  datatype Registry = Registry(usersById: map<int, seq<Pet>>, nextPetId: int)

  /** The response sent and the registry left behind. */
  datatype Handled = Handled(response: Response, registry: Registry)

  /** The routes `handlePetsRoute` tells apart, tried in this order. */
  datatype Route = ListPets | GetPet(segment: string) | CreatePet | Unmatched

  const NotFound := Response(NOT_FOUND, Text("Not found"))
  const BadJson := Response(BAD_REQUEST, Text("Bad JSON"))

  /** Every pet of the list has an id in [1, next). */
  ghost predicate IdsBelow(pets: seq<Pet>, next: int) {
    forall i :: 0 <= i < |pets| ==> 1 <= pets[i].id < next
  }

  /** The list is in strictly increasing id order, so no id repeats. */
  ghost predicate Increasing(pets: seq<Pet>) {
    forall i, j :: 0 <= i < j < |pets| ==> pets[i].id < pets[j].id
  }

  /** No id is in both lists. */
  ghost predicate Disjoint(a: seq<Pet>, b: seq<Pet>) {
    forall i, j :: 0 <= i < |a| && 0 <= j < |b| ==> a[i].id != b[j].id
  }

  /**
   * The registry invariant: ids lie in [1, nextPetId), each user's list is in
   * strictly increasing id order, and no id is held by two users.
   */
  ghost predicate WellFormed(reg: Registry) {
    && reg.nextPetId >= 1
    && (forall u :: u in reg.usersById ==>
          IdsBelow(reg.usersById[u], reg.nextPetId) && Increasing(reg.usersById[u]))
    && (forall u, v :: u in reg.usersById && v in reg.usersById && u != v ==>
          Disjoint(reg.usersById[u], reg.usersById[v]))
  }

  /** The caller's list, empty when the caller has no entry yet. */
  function Owned(reg: Registry, userId: int): seq<Pet> {
    if userId in reg.usersById then reg.usersById[userId] else []
  }

  /**
   * `getUserId`: no id unless the header is present and starts with
   * "Bearer "; then the numeric value of the trimmed rest, when finite.
   */
  function GetUserId(authorization: Option<string>): (r: Option<int>)
    ensures r.Some? ==> authorization.Some? && StartsWith(authorization.value, "Bearer ")
    ensures authorization.Some? && StartsWith(authorization.value, "Bearer ") ==>
      r == ParseNumber(Trim(authorization.value[7..]))
  {
    match authorization
    case None => None
    case Some(h) =>
      if h == "" || !StartsWith(h, "Bearer ") then None
      else ParseNumber(Trim(h[7..]))
  }

  /** The longest prefix of `s` without a '/'. */
  function TakeUntilSlash(s: string): (r: string)
    ensures '/' !in r
    ensures |r| <= |s| && r == s[..|r|]
    ensures |r| == |s| || s[|r|] == '/'
  {
    if s == [] || s[0] == '/' then [] else [s[0]] + TakeUntilSlash(s[1..])
  }

  /**
   * `pathname.split('/')[2]` for a pathname under "/pets/": the text between
   * the second and the third '/', or up to the end.
   */
  function PathSegment(pathname: string): (segment: string)
    requires StartsWith(pathname, "/pets/")
    ensures '/' !in segment
    ensures 6 + |segment| <= |pathname| && pathname[6..6 + |segment|] == segment
    ensures 6 + |segment| == |pathname| || pathname[6 + |segment|] == '/'
  {
    TakeUntilSlash(pathname[6..])
  }

  function RouteOf(verb: string, pathname: string): Route {
    if verb == "GET" && pathname == "/pets" then ListPets
    else if verb == "GET" && StartsWith(pathname, "/pets/") then GetPet(PathSegment(pathname))
    else if verb == "POST" && pathname == "/pet" then CreatePet
    else Unmatched
  }

  /** `pets.find((p) => p.id === id)`: the first pet of the list with that id, if any. */
  function FindPet(pets: seq<Pet>, id: int): (r: Option<Pet>)
    ensures r.None? <==> forall i :: 0 <= i < |pets| ==> pets[i].id != id
    ensures r.Some? ==>
      exists i :: (0 <= i < |pets| && pets[i] == r.value && r.value.id == id
        && forall j :: 0 <= j < i ==> pets[j].id != id)
  {
    if pets == [] then None
    else if pets[0].id == id then Some(pets[0])
    else
      var r := FindPet(pets[1..], id);
      assert forall i :: 0 <= i < |pets[1..]| ==> pets[1..][i] == pets[i + 1];
      r
  }

  /**
   * `String(body?.name ?? '')`. The name is absent unless the body is an
   * object with a `name` key; absent and null both give ''. None when
   * `String` throws.
   */
  function PetName(body: Json): (name: Option<string>)
    ensures (body.JObj? && "name" in body.fields) || name == Some("")
    ensures body.JObj? && "name" in body.fields && body.fields["name"].JStr? ==>
      name == Some(body.fields["name"].s)
    ensures body.JObj? && "name" in body.fields && body.fields["name"] == JNull ==> name == Some("")
    ensures body.JObj? && "name" in body.fields && body.fields["name"] != JNull ==>
      name == JsString(body.fields["name"])
    ensures name.None? <==> body.JObj? && "name" in body.fields && StringThrows(body.fields["name"])
  {
    var given := if body.JObj? && "name" in body.fields then body.fields["name"] else JNull;
    if given == JNull then Some("") else JsString(given)
  }

  /**
   * `handlePetsRoute` for an authenticated `userId`. The caller always ends
   * up with an entry; no other user's entry changes; the counter moves by at
   * most one; the caller's list is kept or grows by one pet at its end whose
   * id is the old counter.
   */
  function PetsRoute(reg: Registry, userId: int, verb: string, pathname: string, body: Option<Json>): (h: Handled)
    ensures userId in h.registry.usersById
    ensures forall u :: u != userId ==>
      (u in h.registry.usersById <==> u in reg.usersById)
      && (u in reg.usersById ==> h.registry.usersById[u] == reg.usersById[u])
    ensures h.registry.nextPetId == reg.nextPetId || h.registry.nextPetId == reg.nextPetId + 1
    ensures h.registry.nextPetId == reg.nextPetId + 1 ==> RouteOf(verb, pathname) == CreatePet && body.Some?
    ensures RouteOf(verb, pathname) == Unmatched ==> h.response == NotFound
    ensures || h.registry.usersById[userId] == Owned(reg, userId)
            || (&& h.response.status == CREATED && h.response.payload.PetJson?
                && h.response.payload.pet.id == reg.nextPetId
                && h.registry.usersById[userId] == Owned(reg, userId) + [h.response.payload.pet])
  {
    var pets := Owned(reg, userId);
    var users := reg.usersById[userId := pets];
    var next := reg.nextPetId;
    match RouteOf(verb, pathname)
    case ListPets => Handled(Response(OK, PetListJson(pets)), Registry(users, next))
    case GetPet(segment) => Handled(Lookup(pets, segment), Registry(users, next))
    case CreatePet => Create(Registry(users, next), userId, body)
    case Unmatched => Handled(NotFound, Registry(users, next))
  }

  /**
   * GET /pets/<segment> on the caller's list: 400 when the segment is not a
   * number, 404 when no pet of the list has that id, else the first that has.
   */
  function Lookup(pets: seq<Pet>, segment: string): (r: Response)
    ensures ParseNumber(segment).None? <==> r == Response(BAD_REQUEST, Text("Invalid pet id"))
    ensures ParseNumber(segment).Some? ==>
      (r == NotFound <==> forall i :: 0 <= i < |pets| ==> pets[i].id != ParseNumber(segment).value)
    ensures r.status == OK ==>
      && r.payload.PetJson? && Some(r.payload.pet.id) == ParseNumber(segment)
      && exists i :: (0 <= i < |pets| && pets[i] == r.payload.pet
           && forall j :: 0 <= j < i ==> pets[j].id != pets[i].id)
    ensures r.status == OK <==>
      ParseNumber(segment).Some? && exists i :: 0 <= i < |pets| && pets[i].id == ParseNumber(segment).value
    ensures r.status == OK || r.status == NOT_FOUND || r.status == BAD_REQUEST
  {
    match ParseNumber(segment)
    case None => Response(BAD_REQUEST, Text("Invalid pet id"))
    case Some(id) =>
      match FindPet(pets, id)
      case None => NotFound
      case Some(pet) => Response(OK, PetJson(pet))
  }

  /**
   * POST /pet for a caller that has an entry. The counter is taken before
   * the name is converted, so a name whose conversion throws still uses up
   * an id; the pet is appended only when the name converts.
   */
  function Create(reg: Registry, userId: int, body: Option<Json>): (h: Handled)
    requires userId in reg.usersById
    ensures body.None? ==> h == Handled(BadJson, reg)
    ensures body.Some? ==> h.registry.nextPetId == reg.nextPetId + 1
    ensures h.response.status == CREATED <==> body.Some? && PetName(body.value).Some?
    ensures h.response.status != CREATED ==>
      (h.response == BadJson && h.registry.usersById == reg.usersById)
  {
    match body
    case None => Handled(BadJson, reg)
    case Some(value) =>
      var next := reg.nextPetId;
      match PetName(value)
      case None => Handled(BadJson, Registry(reg.usersById, next + 1))
      case Some(name) =>
        var pet := Pet(next, name);
        Handled(Response(CREATED, PetJson(pet)),
          Registry(reg.usersById[userId := reg.usersById[userId] + [pet]], next + 1))
  }

  /** The request handler after the fault draws: the url/method check, authentication, routing. */
  function Dispatch(reg: Registry, req: Request): (h: Handled)
    ensures req.url == "" || req.verb == "" ==> h == Handled(Response(OK, Text("")), reg)
    ensures req.url != "" && req.verb != "" && GetUserId(req.authorization).None? ==>
      h == Handled(Response(UNAUTHORIZED, Text("Unauthorized")), reg)
    ensures GetUserId(req.authorization).None? ==> h.registry == reg
    ensures (&& req.url != "" && req.verb != "" && GetUserId(req.authorization).Some?
             && !StartsWith(req.pathname, "/pets") && req.pathname != "/pet")
      ==> h == Handled(NotFound, reg)
    ensures h.registry != reg ==>
      (GetUserId(req.authorization).Some? && (StartsWith(req.pathname, "/pets") || req.pathname == "/pet"))
  {
    if req.url == "" || req.verb == "" then Handled(Response(OK, Text("")), reg)
    else
      match GetUserId(req.authorization)
      case None => Handled(Response(UNAUTHORIZED, Text("Unauthorized")), reg)
      case Some(userId) =>
        if StartsWith(req.pathname, "/pets") || req.pathname == "/pet" then
          PetsRoute(reg, userId, req.verb, req.pathname, req.body)
        else Handled(NotFound, reg)
  }

  /** The whole handler: an injected 500, a hang that never answers, or Dispatch. */
  function Serve(reg: Registry, fault: Fault, req: Request): (r: (Option<Response>, Registry))
    ensures r.0.None? <==> fault == Hang
    ensures fault != NoFault ==> r.1 == reg
    ensures fault == InjectedError ==> r.0 == Some(Response(INTERNAL_ERROR, Text("Random server error")))
    ensures fault == NoFault ==> r == (Some(Dispatch(reg, req).response), Dispatch(reg, req).registry)
  {
    match fault
    case InjectedError => (Some(Response(INTERNAL_ERROR, Text("Random server error"))), reg)
    case Hang => (None, reg)
    case NoFault =>
      var h := Dispatch(reg, req);
      (Some(h.response), h.registry)
  }

  /** Appending a pet whose id is the counter keeps a list below the moved counter and increasing. */
  lemma AppendFresh(pets: seq<Pet>, pet: Pet, next: int)
    requires IdsBelow(pets, next) && Increasing(pets) && pet.id == next >= 1
    ensures IdsBelow(pets + [pet], next + 1) && Increasing(pets + [pet])
  {
    var longer := pets + [pet];
    forall i, j | 0 <= i < j < |longer| ensures longer[i].id < longer[j].id {
      assert longer[i] == pets[i];
    }
  }

  /** A list below the counter shares no id with a list that only adds the counter to it. */
  lemma DisjointFromFresh(mine: seq<Pet>, pet: Pet, other: seq<Pet>, next: int)
    requires Disjoint(mine, other) && IdsBelow(other, next) && pet.id == next
    ensures Disjoint(mine + [pet], other) && Disjoint(other, mine + [pet])
  {
    var longer := mine + [pet];
    forall i, j | 0 <= i < |longer| && 0 <= j < |other| ensures longer[i].id != other[j].id {
      if i < |mine| {
        assert longer[i] == mine[i];
      }
    }
  }

  /** Creating a pet appends a fresh id, larger than every id in the registry. */
  lemma {:induction false} AppendKeepsWellFormed(reg: Registry, userId: int, name: string)
    requires WellFormed(reg)
    ensures var pets := Owned(reg, userId);
      WellFormed(Registry(reg.usersById[userId := pets + [Pet(reg.nextPetId, name)]], reg.nextPetId + 1))
  {
    var pets := Owned(reg, userId);
    var pet := Pet(reg.nextPetId, name);
    var next := reg.nextPetId;
    var users: map<int, seq<Pet>> := reg.usersById[userId := pets + [pet]];
    AppendFresh(pets, pet, next);
    forall u | u in users ensures IdsBelow(users[u], next + 1) && Increasing(users[u]) {
      if u != userId {
        assert IdsBelow(reg.usersById[u], next);
      }
    }
    forall u, v | u in users && v in users && u != v ensures Disjoint(users[u], users[v]) {
      if u == userId {
        if userId !in reg.usersById {
          assert Disjoint(pets, users[v]);
        }
        DisjointFromFresh(pets, pet, users[v], next);
      } else if v == userId {
        if userId !in reg.usersById {
          assert Disjoint(pets, users[u]);
        } else {
          assert Disjoint(pets, users[u]);
        }
        DisjointFromFresh(pets, pet, users[u], next);
      }
    }
  }

  /** Giving the caller an (empty) entry, and moving the counter on, keep the invariant. */
  lemma EntryKeepsWellFormed(reg: Registry, userId: int, next: int)
    requires WellFormed(reg) && next >= reg.nextPetId
    ensures WellFormed(Registry(reg.usersById[userId := Owned(reg, userId)], next))
  {
    var users: map<int, seq<Pet>> := reg.usersById[userId := Owned(reg, userId)];
    assert forall u :: u in users ==> users[u] == Owned(reg, u);
  }

  /** Every route keeps the registry invariant. */
  lemma PetsRouteKeepsWellFormed(reg: Registry, userId: int, verb: string, pathname: string, body: Option<Json>)
    requires WellFormed(reg)
    ensures WellFormed(PetsRoute(reg, userId, verb, pathname, body).registry)
  {
    var after := PetsRoute(reg, userId, verb, pathname, body).registry;
    var users := reg.usersById[userId := Owned(reg, userId)];
    if RouteOf(verb, pathname) == CreatePet && body.Some? && PetName(body.value).Some? {
      var name := PetName(body.value).value;
      assert verb == "POST" && pathname == "/pet";
      CreateAppendsToCallerOnly(reg, userId, body.value, name);
      AppendKeepsWellFormed(reg, userId, name);
    } else {
      assert after.usersById == users;
      EntryKeepsWellFormed(reg, userId, after.nextPetId);
    }
  }

  /** An authenticated request under "/pets" or to "/pet" is handled by `handlePetsRoute` for that user. */
  lemma DispatchToPetsRoute(reg: Registry, req: Request, userId: int)
    requires req.url != "" && req.verb != ""
    requires GetUserId(req.authorization) == Some(userId)
    requires StartsWith(req.pathname, "/pets") || req.pathname == "/pet"
    ensures Dispatch(reg, req) == PetsRoute(reg, userId, req.verb, req.pathname, req.body)
  {
  }

  /**
   * POST /pet with a body whose name converts: a pet with the old counter as
   * id is appended to the caller's list only, the counter moves by one, 201.
   */
  lemma CreateAppendsToCallerOnly(reg: Registry, userId: int, body: Json, name: string)
    requires PetName(body) == Some(name)
    ensures var h := PetsRoute(reg, userId, "POST", "/pet", Some(body));
      && h.response == Response(CREATED, PetJson(Pet(reg.nextPetId, name)))
      && h.registry.nextPetId == reg.nextPetId + 1
      && h.registry.usersById == reg.usersById[userId := Owned(reg, userId) + [Pet(reg.nextPetId, name)]]
  {
  }

  /** POST /pet with a body that does not parse: 400 "Bad JSON", counter and lists unchanged. */
  lemma BadJsonChangesNoList(reg: Registry, userId: int)
    ensures var h := PetsRoute(reg, userId, "POST", "/pet", None);
      && h.response == BadJson
      && h.registry.nextPetId == reg.nextPetId
      && forall u :: Owned(h.registry, u) == Owned(reg, u)
  {
  }

  /**
   * GET /pets from an authenticated user answers that user's list, in
   * insertion order; the only change is the caller's entry, created empty
   * if it was missing.
   */
  lemma ListReturnsOwnList(reg: Registry, req: Request, userId: int)
    requires req.url != "" && req.verb == "GET" && req.pathname == "/pets"
    requires GetUserId(req.authorization) == Some(userId)
    ensures Dispatch(reg, req)
      == Handled(Response(OK, PetListJson(Owned(reg, userId))),
                 Registry(reg.usersById[userId := Owned(reg, userId)], reg.nextPetId))
  {
    assert StartsWith(req.pathname, "/pets");
    DispatchToPetsRoute(reg, req, userId);
    assert RouteOf("GET", "/pets") == ListPets;
  }

  lemma PetPathSegment(id: int)
    ensures StartsWith("/pets/" + IntToString(id), "/pets/")
    ensures RouteOf("GET", "/pets/" + IntToString(id)) == GetPet(IntToString(id))
  {
    var s := IntToString(id);
    var path := "/pets/" + s;
    assert path[..6] == "/pets/";
    assert '/' !in s by {
      if id < 0 {
        assert s == [s[0]] + s[1..];
      }
    }
    assert path[6..] == s;
    assert path != "/pets";
  }

  /** GET /pets/<id> for one of the caller's own pets returns exactly that pet. */
  lemma GetFindsOwnPet(reg: Registry, userId: int, p: Pet)
    requires WellFormed(reg)
    requires userId in reg.usersById && p in reg.usersById[userId]
    ensures PetsRoute(reg, userId, "GET", "/pets/" + IntToString(p.id), None).response
      == Response(OK, PetJson(p))
  {
    PetPathSegment(p.id);
    IntToStringRoundTrip(p.id);
    var pets := reg.usersById[userId];
    var r := FindPet(pets, p.id);
    assert r.Some?;
    var i :| 0 <= i < |pets| && pets[i] == r.value && forall j :: 0 <= j < i ==> pets[j].id != p.id;
    var k :| 0 <= k < |pets| && pets[k] == p;
    assert i == k;
  }

  /** GET /pets/<id> for a pet of another user is 404: no user sees another's pets. */
  lemma GetNeverReturnsOthersPet(reg: Registry, userId: int, owner: int, p: Pet)
    requires WellFormed(reg)
    requires owner != userId && owner in reg.usersById && p in reg.usersById[owner]
    ensures PetsRoute(reg, userId, "GET", "/pets/" + IntToString(p.id), None).response == NotFound
  {
    PetPathSegment(p.id);
    IntToStringRoundTrip(p.id);
    var k :| 0 <= k < |reg.usersById[owner]| && reg.usersById[owner][k] == p;
    var pets := Owned(reg, userId);
    forall i | 0 <= i < |pets| ensures pets[i].id != p.id {
      assert pets[i] == reg.usersById[userId][i];
    }
  }

  /**
   * An authenticated GET /pets/<id> for a pet held by `owner` answers that
   * pet exactly when the caller is its owner, and 404 otherwise; the only
   * change is the caller's entry, created empty if it was missing.
   */
  lemma FetchAnswersOwnerOnly(reg: Registry, req: Request, userId: int, owner: int, p: Pet)
    requires WellFormed(reg)
    requires owner in reg.usersById && p in reg.usersById[owner]
    requires req.url != "" && req.verb == "GET" && req.pathname == "/pets/" + IntToString(p.id)
    requires GetUserId(req.authorization) == Some(userId)
    ensures Dispatch(reg, req)
      == Handled(if owner == userId then Response(OK, PetJson(p)) else NotFound,
                 Registry(reg.usersById[userId := Owned(reg, userId)], reg.nextPetId))
  {
    var h := PetsRoute(reg, userId, "GET", req.pathname, None);
    assert h.registry == Registry(reg.usersById[userId := Owned(reg, userId)], reg.nextPetId) by {
      PetPathSegment(p.id);
    }
    assert h.response == if owner == userId then Response(OK, PetJson(p)) else NotFound by {
      if owner == userId {
        GetFindsOwnPet(reg, userId, p);
      } else {
        GetNeverReturnsOthersPet(reg, userId, owner, p);
      }
    }
    assert Dispatch(reg, req) == h by {
      assert req.pathname[..5] == "/pets";
      DispatchToPetsRoute(reg, req, userId);
    }
  }

  /** The server state: the registry map, updated in place, and the shared id counter. */
  class PetStore {
    var usersById: map<int, seq<Pet>>
    var nextPetId: int

    function State(): Registry
      reads this
    {
      Registry(usersById, nextPetId)
    }

    ghost predicate Valid()
      reads this
    {
      WellFormed(State())
    }

    /** The module state at start-up: no users, next id 1. */
    constructor ()
      ensures Valid() && usersById == map[] && nextPetId == 1
    {
      usersById := map[];
      nextPetId := 1;
    }

    /** `handlePetsRoute`: mutates the caller's entry, its list and the counter in place. */
    method HandlePetsRoute(userId: int, verb: string, pathname: string, body: Option<Json>)
      returns (response: Response)
      requires Valid()
      modifies this
      ensures Valid()
      ensures Handled(response, State()) == PetsRoute(old(State()), userId, verb, pathname, body)
    {
      ghost var before := State();
      if userId !in usersById {
        usersById := usersById[userId := []];
      }
      var pets := usersById[userId];
      assert pets == Owned(before, userId);
      assert usersById == before.usersById[userId := pets];
      ghost var route := RouteOf(verb, pathname);
      if verb == "GET" && pathname == "/pets" {
        assert route == ListPets;
        response := Response(OK, PetListJson(pets));
      } else if verb == "GET" && StartsWith(pathname, "/pets/") {
        assert route == GetPet(PathSegment(pathname));
        // the lookup changes nothing, so it is the pure `Lookup`
        response := Lookup(pets, PathSegment(pathname));
      } else if verb == "POST" && pathname == "/pet" {
        assert route == CreatePet;
        ghost var created := Create(State(), userId, body);
        if body.None? {
          response := BadJson;
        } else {
          var id := nextPetId;
          nextPetId := nextPetId + 1;
          var name := PetName(body.value);
          if name.None? {
            response := BadJson;
          } else {
            var pet := Pet(id, name.value);
            usersById := usersById[userId := pets + [pet]];
            response := Response(CREATED, PetJson(pet));
          }
        }
        assert Handled(response, State()) == created;
      } else {
        assert route == Unmatched;
        response := NotFound;
      }
      assert Valid() by {
        PetsRouteKeepsWellFormed(before, userId, verb, pathname, body);
      }
    }

    /** The `createServer` callback: fault draws, then the checks and routing of Dispatch. */
    method HandleRequest(fault: Fault, req: Request) returns (response: Option<Response>)
      requires Valid()
      modifies this
      ensures Valid()
      ensures (response, State()) == Serve(old(State()), fault, req)
    {
      if fault == InjectedError {
        return Some(Response(INTERNAL_ERROR, Text("Random server error")));
      }
      if fault == Hang {
        return None;
      }
      if req.url == "" || req.verb == "" {
        return Some(Response(OK, Text("")));
      }
      var userId := GetUserId(req.authorization);
      if userId.None? {
        return Some(Response(UNAUTHORIZED, Text("Unauthorized")));
      }
      if StartsWith(req.pathname, "/pets") || req.pathname == "/pet" {
        var r := HandlePetsRoute(userId.value, req.verb, req.pathname, req.body);
        return Some(r);
      }
      return Some(NotFound);
    }
  }
}

=== FILE: retry_engine.dfy ===
/**
 * The transport and retry engine of the client (`performHttpRequest` in
 * src/api.ts). One attempt of the network call is abstracted to an Outcome;
 * the engine classifies it and either returns, retries after a backoff, or
 * surfaces the error.
 */
module RetryEngine {
  import opened Wrappers
  import opened JsValues
  import opened Constants

  datatype Method = GET | POST

  /** A request as the caller issues it: `request(method, path, body?)`. */
  datatype Call = Call(verb: Method, path: string, body: Option<map<string, Json>>)

  /** What one attempt hands to `http.request`: headers that vary, and the body written. */
  datatype HttpRequest = HttpRequest(
    verb: Method,
    path: string,
    authorization: Option<string>,
    payload: Option<map<string, Json>>)

  /** How one attempt of the network call ended. */
  datatype Outcome =
    | Response(statusCode: Option<nat>, text: string)  // statusCode may be missing
    | TimedOut                                         // the per-attempt timer fired first
    | TransportError(message: string)                  // the request emitted 'error'

  /** An Error with the optional `retry` flag of RetryError. */
  datatype RetryError = RetryError(message: string, retry: bool)

  /** One attempt: the response text of a 2xx, or the error it was rejected with. */
  datatype Attempt = Delivered(text: string) | Failed(error: RetryError)

  /** What a successful call resolves with: the parsed payload, or the raw text. */
  datatype Reply = Parsed(value: Json) | RawText(text: string)

  datatype CallResult = Resolved(reply: Reply) | Rejected(error: RetryError)

  /** The settled result of one call and how many attempts it made. */
  datatype Trace = Trace(result: CallResult, attempts: nat)

  /** The three kinds of HTTP status the engine tells apart. */
  datatype StatusClass = Success | Retryable | Fatal

  /** `response.statusCode ?? 0`. */
  function StatusOf(o: Outcome): nat
    requires o.Response?
  {
    o.statusCode.GetOr(0)
  }

  /** The reference table: 401 and 500 are transient, 2xx is success, anything else is fatal. */
  function ClassOf(status: nat): StatusClass {
    if status == UNAUTHORIZED || status == INTERNAL_ERROR then Retryable
    else if 200 <= status < 300 then Success
    else Fatal
  }

  /** The outcomes the engine is meant to retry: a retryable status, or a timeout. */
  predicate IsTransient(o: Outcome) {
    || (o.Response? && ClassOf(StatusOf(o)) == Retryable)
    || o.TimedOut?
    || (o.TransportError? && o.message == "Timeout")
  }

  function HttpMessage(status: nat, text: string): string {
    "HTTP " + NatToString(status) + ": " + text
  }

  /** `err.message === 'Timeout' || err.retry === true`. */
  predicate ShouldRetry(err: RetryError) {
    err.message == "Timeout" || err.retry
  }

  /**
   * The response callback, the timeout race and the 'error' listener of one
   * attempt, as the value the attempt's promise settles with.
   */
  function Classify(o: Outcome): (a: Attempt)
    ensures a.Delivered? <==> o.Response? && ClassOf(StatusOf(o)) == Success
    ensures a.Delivered? ==> a.text == o.text
    ensures o.Response? && a.Failed? ==> a.error.message == HttpMessage(StatusOf(o), o.text)
    ensures a.Failed? ==> (ShouldRetry(a.error) <==> IsTransient(o))
    ensures o.TimedOut? ==> a == Failed(RetryError("Timeout", false))
    ensures o.TransportError? ==> a == Failed(RetryError(o.message, false))
  {
    match o
    case Response(code, text) =>
      var status := code.GetOr(0);
      var message := HttpMessage(status, text);
      assert message[0] != "Timeout"[0];
      if status == INTERNAL_ERROR || status == UNAUTHORIZED then Failed(RetryError(message, true))
      else if status >= 200 && status < 300 then Delivered(text)
      else Failed(RetryError(message, false))
    case TimedOut => Failed(RetryError("Timeout", false))
    case TransportError(message) => Failed(RetryError(message, false))
  }

  /** `JSON.parse(text)`, falling back to the text itself when it does not parse. */
  function Decode(parse: string -> Option<Json>, text: string): Reply {
    match parse(text)
    case Some(v) => Parsed(v)
    case None => RawText(text)
  }

  /** What the call settles with when `o` is its last attempt. */
  function Settle(o: Outcome, parse: string -> Option<Json>): (r: CallResult)
    ensures r.Resolved? <==> Classify(o).Delivered?
    ensures r.Resolved? && parse(o.text).None? ==> r.reply == RawText(o.text)
    ensures r.Resolved? && parse(o.text).Some? ==> r.reply == Parsed(parse(o.text).value)
    ensures r.Rejected? ==> r.error == Classify(o).error
  {
    match Classify(o)
    case Delivered(text) => Resolved(Decode(parse, text))
    case Failed(err) => Rejected(err)
  }

  /** The pause before attempt `attempt + 1`. */
  function Backoff(attempt: nat): nat {
    BACKOFF_STEP_MS * attempt
  }

  /** `Bearer <auth>` when `auth` is truthy (defined and not 0); no header otherwise. */
  function AuthorizationHeader(auth: Option<int>): (h: Option<string>)
    ensures h.Some? <==> auth.Some? && auth.value != 0
    ensures h.Some? ==> StartsWith(h.value, "Bearer ") && h.value[7..] == IntToString(auth.value)
  {
    match auth
    case Some(n) =>
      if n == 0 then None
      else
        var header := "Bearer " + IntToString(n);
        assert header[7..] == IntToString(n);
        Some(header)
    case None => None
  }

  /** `Number` reads the id back from the header: the text after "Bearer " is `auth`. */
  lemma HeaderReadsBack(auth: Option<int>)
    requires AuthorizationHeader(auth).Some?
    ensures ParseNumber(AuthorizationHeader(auth).value[7..]) == auth
  {
    IntToStringRoundTrip(auth.value);
  }

  /** The request of one attempt: a body is written only for POST with a body. */
  function BuildRequest(call: Call, auth: Option<int>): (r: HttpRequest)
    ensures r.verb == call.verb && r.path == call.path
    ensures r.authorization == AuthorizationHeader(auth)
    ensures r.payload.Some? <==> call.verb == POST && call.body.Some?
    ensures r.payload.Some? ==> r.payload == call.body
  {
    HttpRequest(call.verb, call.path, AuthorizationHeader(auth),
      if call.body.Some? && call.verb == POST then call.body else None)
  }

  /**
   * The state machine of one call from attempt `attempt` on, where
   * `respond(k)` is how attempt k ends. Every attempt before the last was a
   * transient failure; the call stops at the first attempt that is not one,
   * or after MAX_RETRIES + 1 attempts, and settles with that attempt.
   */
  function Run(respond: nat -> Outcome, parse: string -> Option<Json>, attempt: nat): (t: Trace)
    requires 1 <= attempt <= MAX_RETRIES + 1
    ensures attempt <= t.attempts <= MAX_RETRIES + 1
    ensures forall k :: attempt <= k < t.attempts ==> IsTransient(respond(k))
    ensures t.attempts < MAX_RETRIES + 1 ==> !IsTransient(respond(t.attempts))
    ensures t.result == Settle(respond(t.attempts), parse)
    decreases MAX_RETRIES + 1 - attempt
  {
    match Classify(respond(attempt))
    case Delivered(text) => Trace(Resolved(Decode(parse, text)), attempt)
    case Failed(err) =>
      if ShouldRetry(err) && attempt <= MAX_RETRIES then Run(respond, parse, attempt + 1)
      else Trace(Rejected(err), attempt)
  }

  /**
   * A call whose every attempt is transient makes exactly MAX_RETRIES + 1
   * attempts and surfaces the error of the last one.
   */
  lemma RetriesExhausted(respond: nat -> Outcome, parse: string -> Option<Json>)
    requires forall k :: 1 <= k <= MAX_RETRIES + 1 ==> IsTransient(respond(k))
    ensures Run(respond, parse, 1).attempts == MAX_RETRIES + 1
    ensures Run(respond, parse, 1).result.Rejected?
    ensures Run(respond, parse, 1).result == Settle(respond(MAX_RETRIES + 1), parse)
  {
    var t := Run(respond, parse, 1);
    assert IsTransient(respond(t.attempts));
  }

  /**
   * The first attempt that is not transient (a success, a fatal status, or a
   * transport error other than 'Timeout') ends the call: no further attempt
   * is made and the call settles with it.
   */
  lemma StopsAtFirstSettlingAttempt(respond: nat -> Outcome, parse: string -> Option<Json>, k: nat)
    requires 1 <= k <= MAX_RETRIES + 1
    requires forall j :: 1 <= j < k ==> IsTransient(respond(j))
    requires !IsTransient(respond(k))
    ensures Run(respond, parse, 1).attempts == k
    ensures Run(respond, parse, 1).result == Settle(respond(k), parse)
  {
    var t := Run(respond, parse, 1);
    if t.attempts < k {
      assert false;
    }
  }

  /** The pauses between attempts grow strictly. */
  lemma BackoffsIncrease(delays: seq<nat>)
    requires forall i :: 0 <= i < |delays| ==> delays[i] == Backoff(i + 1)
    ensures forall i, j :: 0 <= i < j < |delays| ==> delays[i] < delays[j]
  {
  }

  /**
   * `performHttpRequest`: reads `auth` once, then loops over attempts. Every
   * attempt sends the same request; the call settles as Run says; the pauses
   * taken are 150, 300, ... ms, one fewer than the attempts, strictly growing.
   */
  method PerformHttpRequest(call: Call, auth: Option<int>, respond: nat -> Outcome, parse: string -> Option<Json>)
    returns (result: CallResult, sent: seq<HttpRequest>, delays: seq<nat>)
    ensures result == Run(respond, parse, 1).result
    ensures |sent| == Run(respond, parse, 1).attempts
    ensures forall i :: 0 <= i < |sent| ==> sent[i] == BuildRequest(call, auth)
    ensures |delays| == |sent| - 1
    ensures forall i :: 0 <= i < |delays| ==> delays[i] == Backoff(i + 1)
    ensures forall i, j :: 0 <= i < j < |delays| ==> delays[i] < delays[j]
  {
    var request := BuildRequest(call, auth);
    var attemptNumber := 1;
    sent, delays := [], [];
    while true
      invariant 1 <= attemptNumber <= MAX_RETRIES + 1
      invariant Run(respond, parse, attemptNumber) == Run(respond, parse, 1)
      invariant |sent| == |delays| == attemptNumber - 1
      invariant forall i :: 0 <= i < |sent| ==> sent[i] == request
      invariant forall i :: 0 <= i < |delays| ==> delays[i] == Backoff(i + 1)
      decreases MAX_RETRIES + 1 - attemptNumber
    {
      sent := sent + [request];
      ghost var trace := Run(respond, parse, attemptNumber);
      match Classify(respond(attemptNumber))
      case Delivered(text) =>
        result := Resolved(Decode(parse, text));
        assert trace == Trace(result, attemptNumber);
        BackoffsIncrease(delays);
        return;
      case Failed(err) =>
        if ShouldRetry(err) && attemptNumber <= MAX_RETRIES {
          delays := delays + [Backoff(attemptNumber)];
          attemptNumber := attemptNumber + 1;
        } else {
          result := Rejected(err);
          assert trace == Trace(result, attemptNumber);
          BackoffsIncrease(delays);
          return;
        }
    }
  }
}

=== FILE: wrappers.dfy ===
/** The optional value used wherever the source has `undefined`, `null` or a thrown parse error. */
module Wrappers {

  datatype Option<+T> = None | Some(value: T) {

    /** The value, or `default` when there is none (JavaScript's `??`). */
    function GetOr(default: T): T {
      match this
      case Some(v) => v
      case None => default
    }
  }
}
